=== FILE: README.md ===
# Split-Stream grid core in Dafny

A model of the decision logic behind the Split-Stream page. Users paste
YouTube URLs into a grid of simultaneously playing videos, and the grid
records the session as analytics rows. The model covers:

- **VideoIds**: `extractVideoId`. It tries the watch-page, short-link and
  embed patterns in that order and captures the identifier after the first
  one that matches.
- **Streams**: the ordered list of `VideoStream` records and the
  transitions `addVideoStream`, `removeStream`, `togglePlayPause` and
  `toggleMute`. Each is a pure function from the current streams to the
  next streams plus the rows it issues. **StreamProofs** and **GridRuns**
  prove that the grid invariant holds: at most `maxScreens` streams, each
  video at most once, for single steps and for whole command sequences.
  The remove/re-add and toggle properties are proved for single steps;
  over whole sequences only the invariant and the silence without a
  signed-in user are proved. A
  command sequence can also start and end the session, favorite a video
  and share the session; without a signed-in user none of them writes
  anything.
- **Layout**: `getGridLayout`. The class list is modelled as column
  classes, each active from one breakpoint upwards. The returned string is
  the rendering of that list.
- **Events** and **Sessions**: the analytics rows. `trackAnalytics` is
  gated on a signed-in user. Also modelled: the `session_start` payload,
  `trackSessionEnd` (summary row first, then `session_end`),
  `addToFavorites` and `shareSession`. The backing store is an external
  sink. A returned record list stands for the inserts one call issues,
  in order; calls do not interleave in the model (see "## Left out").
- **Tiers**: `isPremium`, `isTrialActive`, and the screen limit (8, 4
  or 2) they select in src/pages/Index.tsx. Also the tier badge, the
  trial-expiry note and the upgrade card, which follow the same precedence.

Inputs the source reads from its environment are explicit parameters:

- the signed-in user, as `Option<UserId>`;
- the session id;
- clock readings, in milliseconds;
- the profile row, as `Option<Profile>`;
- how each awaited external call settled (`InsertOutcome`, and a boolean
  for the native share call).

In four places the code does something a reader might not expect; the
model follows the code:

- `addVideoStream` checks capacity before it parses the URL (line 104
  before 113). So a full grid refuses every URL, even an unparseable one.
- Removing or toggling an unknown stream handle is a silent no-op
  (lines 167-193). It is not a "not found" error.
- `removeStream` reports `streams.length - 1` as `screen_count`. This
  equals the new size only while stream handles are distinct
  (`StreamProofs.RemoveReportsNewSize`).
- `session_shared` is issued only after the native share call resolves
  (line 252). The clipboard fallback issues nothing.

## Model

| member | source | states |
|---|---|---|
| VideoIds.TokenEnd | src/components/VideoGrid.tsx:52-54 | the capture `[^&\n?#]+` ends at the first `&`, newline, `?` or `#`, or at the end of the URL |
| VideoIds.FirstMatch | src/components/VideoGrid.tsx:57-59 | a pattern's match is the leftmost position where its marker is followed by a token character; no position is skipped |
| VideoIds.Capture | src/components/VideoGrid.tsx:58-59 | a pattern yields a non-empty, delimiter-free identifier, and yields none exactly when its marker is nowhere followed by a token character |
| VideoIds.FirstCapture | src/components/VideoGrid.tsx:57-61 | trying a list of patterns in order yields nothing exactly when no pattern matches anywhere |
| VideoIds.ExtractVideoId | src/components/VideoGrid.tsx:50-62 | the result is a non-empty identifier without `&`, `?`, `#` or newline, and it is null exactly when none of the three patterns matches |
| VideoIdProofs.CaptureMeaning | src/components/VideoGrid.tsx:52-59 | a pattern captures `t` iff `t` is the maximal token right after the pattern's leftmost match (both directions) |
| VideoIdProofs.FirstCaptureMeaning | src/components/VideoGrid.tsx:57-61 | ordered alternation: the result is `t` iff some pattern captures `t` and no earlier pattern matches anywhere |
| VideoIdProofs.ExtractPrecedence | src/components/VideoGrid.tsx:51-61 | the watch-page pattern wins when it matches; the short link is used only if the watch pattern fails; the embed pattern only if both fail |
| VideoIdRoundTrips.WatchShapeRoundTrip | src/components/VideoGrid.tsx:52 | an identifier placed in a watch-page URL is extracted unchanged |
| VideoIdRoundTrips.ShortShapeRoundTrip | src/components/VideoGrid.tsx:52-53 | an identifier placed in a short link is extracted unchanged; the watch pattern cannot match there |
| VideoIdRoundTrips.EmbedShapeRoundTrip | src/components/VideoGrid.tsx:52-54 | an identifier without `/` placed in an embed URL is extracted unchanged; neither earlier pattern can match there |
| VideoIdRoundTrips.ShapesAgree | src/components/VideoGrid.tsx:50-62 | an identifier without `/` yields itself in each of the three URL shapes, so the shapes agree |
| VideoIdRoundTrips.EmbedShapeNeedsPathSafeId | src/components/VideoGrid.tsx:53-59 | an identifier containing `youtu.be/` need not round-trip in the embed shape: `…/embed/youtu.be/x` yields `x`, because the short-link pattern is tried first |
| VideoIdRoundTrips.NotAUrlIsRejected | src/components/VideoGrid.tsx:57-61 | any text in which none of the three markers occurs yields null; `not a url` is one such text |
| Events.TrackAnalytics | src/components/VideoGrid.tsx:64-73 | with no user, nothing is written; with a user, exactly one `user_analytics` row carrying the user, the event type, the payload and the session |
| Streams.NatToString | src/components/VideoGrid.tsx:136-139 | the number inside the stream handle and title is printed as decimal digits, with no leading zero, whose value is that number |
| Streams.AddVideoStream | src/components/VideoGrid.tsx:103-151 | guards in order: full grid (any URL), then no pattern match, then duplicate video. Every refusal keeps the streams and writes nothing. A success appends one stream: the extracted video, the pasted URL, the clock-derived handle, the title `YouTube Video n` for the new size n, the thumbnail of the video, not playing and not muted. Prior streams are untouched, and `video_added` carries the new size |
| Streams.FindById | src/components/VideoGrid.tsx:168 | the found stream is the first with the handle; nothing is found exactly when no stream has it |
| Streams.RemoveById | src/components/VideoGrid.tsx:169 | the survivors are exactly the streams with another handle; an unknown handle leaves the list as it is |
| Streams.RemoveStream | src/components/VideoGrid.tsx:167-177 | an unknown handle changes nothing and writes nothing; otherwise `video_removed` names the first removed video with count `length - 1` |
| Streams.ToggleFlag | src/components/VideoGrid.tsx:179-193 | same length; exactly the streams with the handle get the flag flipped, all others are kept as they are |
| Streams.TogglePlayPause | src/components/VideoGrid.tsx:179-185 | only `isPlaying` changes, and it changes exactly on the streams with the handle |
| Streams.ToggleMute | src/components/VideoGrid.tsx:187-193 | only `isMuted` changes, and it changes exactly on the streams with the handle |
| StreamProofs.AddPreservesValid | src/components/VideoGrid.tsx:104-145 | an add keeps the size within `maxScreens` and the videos pairwise distinct |
| StreamProofs.AddKeepsHandlesDistinct | src/components/VideoGrid.tsx:136-145 | handles stay distinct when the clock gives a handle not yet in use |
| StreamProofs.StreamIdsDistinct | src/components/VideoGrid.tsx:136 | two clock readings give the same handle iff they are equal |
| StreamProofs.UnparseableUrlIsRefused | src/components/VideoGrid.tsx:103-121 | below capacity, text in which no marker occurs is refused as an invalid URL; the streams are kept and nothing is written |
| StreamProofs.SameVideoOtherShapeIsDuplicate | src/components/VideoGrid.tsx:113-131 | after a watch-page URL with an identifier without `/` is added, the same video as a short link or embed URL is refused: as a duplicate below capacity, as a full grid otherwise |
| StreamProofs.RemoveByIdDistributes | src/components/VideoGrid.tsx:169 | filtering distributes over concatenation, so the kept streams keep their order |
| StreamProofs.RemoveIsDeletion | src/components/VideoGrid.tsx:169 | with distinct handles, removing the handle at position k deletes exactly position k |
| StreamProofs.RemoveReportsNewSize | src/components/VideoGrid.tsx:167-177 | with distinct handles, the grid shrinks by one and `video_removed` reports the removed video and the new size |
| StreamProofs.RemovePreservesValid | src/components/VideoGrid.tsx:167-177 | a removal keeps the grid invariant and distinct handles |
| StreamProofs.RemoveThenReAdd | src/components/VideoGrid.tsx:103-177 | a video in the grid is refused by add; right after its stream is removed, the same URL is accepted, also when other streams share that handle |
| StreamProofs.RemoveShrinks | src/components/VideoGrid.tsx:169 | removing a handle some stream carries makes the grid strictly smaller |
| StreamProofs.RemovedVideoIsGone | src/components/VideoGrid.tsx:169 | with each video shown at most once, removing the handle of a video's stream leaves no stream showing that video |
| StreamProofs.ToggleTwiceIsIdentity | src/components/VideoGrid.tsx:179-193 | toggling the same flag of the same handle twice restores the streams |
| StreamProofs.ToggleUnknownIsNoop | src/components/VideoGrid.tsx:179-193 | a toggle for a handle no stream has changes nothing |
| StreamProofs.TogglesCommute | src/components/VideoGrid.tsx:179-193 | any two toggles give the same streams in either order |
| StreamProofs.TogglePreservesValid | src/components/VideoGrid.tsx:179-193 | toggles keep the handles and videos in place, and with them the grid invariant |
| GridRuns.Step | src/components/VideoGrid.tsx:33-48 | the effect's cleanup ends the session only while the grid is non-empty, so ending an empty session writes nothing; session, favorite and share commands leave the streams alone; rows are only appended to the log |
| GridRuns.StepPreservesValid | src/components/VideoGrid.tsx:103-193 | every command keeps the grid invariant, even when handles collide |
| GridRuns.FilterKeepsVideosDistinct | src/components/VideoGrid.tsx:169 | filtering a grid without duplicate videos leaves one without duplicates |
| GridRuns.RunPreservesValid | src/components/VideoGrid.tsx:103-193 | any command sequence keeps the size at most `maxScreens` and the videos distinct |
| GridRuns.AnonymousRunLogsNothing | src/components/VideoGrid.tsx:64-65 | with no signed-in user, no sequence of adds, removals, toggles, session starts and ends, favorites and shares writes any row, whatever the store and the share call do |
| GridRuns.CapacityTwoSession | src/components/VideoGrid.tsx:103-151 | at capacity 2: short link added; same video as watch URL refused as duplicate; second video added; third add refused as full |
| Layout.DisplayedLayout | src/components/VideoGrid.tsx:311-380 | the grid is drawn iff there is at least one stream, and then with the class string `getGridLayout` returns; otherwise the empty-state card is shown |
| LayoutProofs.GridLayoutStrings | src/components/VideoGrid.tsx:264-272 | 1 gives `grid-cols-1`; 2 and 4 give `grid-cols-1 md:grid-cols-2`; 0, 3 and 5 or more give `grid-cols-1 md:grid-cols-2 lg:grid-cols-3` (each an iff) |
| LayoutProofs.DisplayedColumns | src/components/VideoGrid.tsx:264-272 | every displayed grid has one column on narrow screens and follows the 1/2/3/2/3 column table on wide ones; no width shows more columns than streams; on wide screens up to four streams fill every row |
| Sessions.TrackSessionStart | src/components/VideoGrid.tsx:33-40 | an empty grid or no user writes nothing; otherwise one `session_start` row with the count and the videos in display order |
| Sessions.DurationSeconds | src/components/VideoGrid.tsx:82 | the duration is the floor of the elapsed milliseconds over 1000, also when the clock went backwards |
| Sessions.StreamVideoIds | src/components/VideoGrid.tsx:88 | the video list is each stream's video, in display order |
| Sessions.TrackSessionEnd | src/components/VideoGrid.tsx:79-101 | with no user, nothing. With a user, the `streaming_sessions` summary comes first, with videos, count, the duration floored from the first clock reading and `ended_at` from the second; `session_end` follows with the same duration and count iff that insert resolved |
| Sessions.AddToFavorites | src/components/VideoGrid.tsx:195-237 | with no user, sign-in is required and nothing is written, whatever the store would do. Otherwise one `user_favorites` insert; `video_favorited` follows iff it resolved. Code `23505` is reported as already saved, any other rejection as a generic failure |
| Sessions.SharedVideos | src/components/VideoGrid.tsx:241 | the shared list pairs each stream's video with its title, in display order |
| Sessions.ShareSession | src/components/VideoGrid.tsx:239-262 | the link is copied iff the native share fails; `session_shared` with the video list and timestamp is written iff the share resolved and a user is signed in |
| SessionProofs.SessionEndAfter125Seconds | src/components/VideoGrid.tsx:82-97 | a session ended 125 s (plus under a second) after its start records 125 s in the summary and in `session_end` |
| SessionProofs.ShareListsSessionVideos | src/components/VideoGrid.tsx:241 | a share lists the same videos, in the same order, as `session_start` and the session summary |
| SessionProofs.AddedVideoIsListed | src/components/VideoGrid.tsx:134-151 | after a successful add, the reported video list is the earlier videos followed by the extracted one |
| SessionProofs.AddAppendsOne | src/components/VideoGrid.tsx:145 | a successful add extends the grid by exactly one stream, showing the extracted video |
| SessionProofs.AppendIsListed | src/components/VideoGrid.tsx:33-40 | once one more stream has joined, `session_start` reports the grown count and the earlier videos, then the new one |
| SessionProofs.FavoriteNoticeMatchesLog | src/components/VideoGrid.tsx:195-237 | the saved notice shows iff `video_favorited` follows the favorites row, for the same video; the generic failure shows iff the insert was rejected with a code other than `23505` |
| SessionProofs.DurationIsFloor | src/components/VideoGrid.tsx:82 | the duration is the unique whole number of seconds bracketing the elapsed time |
| Tiers.MaxScreens | src/pages/Index.tsx:397 | the limit is 8 iff premium, 4 iff not premium and on an active trial, 2 otherwise |
| Tiers.TierBadge | src/pages/Index.tsx:333-346 | a badge is shown iff a profile is loaded |
| TierProofs.CapacityOrder | src/pages/Index.tsx:397 | the limit is always at least 2; premium gives more than 4; an active trial gives at least 4 |
| TierProofs.PremiumOverridesTrial | src/pages/Index.tsx:73 | a premium role gives 8 screens and the Premium badge, and hides the trial note and the upgrade card, whatever the subscription status |
| TierProofs.BadgeAgreesWithCapacity | src/pages/Index.tsx:335-397 | Premium / Free Trial / Free badge iff limit 8 / 4 / 2; trial note iff limit 4; upgrade card iff limit below 8 |
| TierProofs.TrialWindow | src/pages/Index.tsx:74 | a non-premium trial gets 4 screens exactly while now is before its end; with no end date (the epoch) it is never active at a non-negative time |
| TierProofs.NoProfileIsFree | src/pages/Index.tsx:73-74 | without a loaded profile the limit is 2, the upgrade card shows and no badge is drawn |

## Left out

- Regular expressions are not modelled in general. Each pattern is a
  scan for its literal marker followed by a maximal token. The optional
  `http(s)://` and `www.` prefixes cannot change the result: every marker
  starts with `y`, no prefix contains one, and no marker overlaps itself.
- React scheduling is not modelled: `useState`, `useRef`, and when the
  `useEffect` at src/components/VideoGrid.tsx:33-48 fires. That effect
  re-runs on every change of the stream count, not only on mount and
  unmount. Only the rows it issues are modelled
  (`Sessions.TrackSessionStart`, `Sessions.TrackSessionEnd`). The stale
  `streams` its cleanup sees is not modelled.
- Backing-store I/O is not modelled. Inserts become returned records, and
  the profile fetch becomes an `Option<Profile>` parameter. Whether the
  store client rejects or returns an error object is outside the model;
  `InsertOutcome` only says how the awaited call settled. Failures of
  unawaited analytics inserts are only logged by the source, so they do
  not appear.
- Toasts, JSX, the iframe embed URL and the clipboard write are not
  modelled. They appear only as error values, notices and the
  `copiedLink` flag. `navigator.share` is a boolean parameter.
- Clocks are millisecond parameters, one per reading the source takes.
  The ISO formatting of `ended_at`
  and the parsing of `trial_ends_at` are left out. A null end date is the
  epoch, as `new Date(null)` gives. A malformed date string, which gives
  `NaN`, is not modelled.
- The `catch` at src/components/VideoGrid.tsx:158-164 is not modelled,
  because nothing in its `try` block throws.
- `maxScreens` defaults to 4 when the prop is omitted (line 25). The
  model takes it as a parameter, and src/pages/Index.tsx always passes it.
- GridRuns.RunPreservesValid: the limit is fixed for a whole run. The page
  recomputes it on every render: it is 2 until the profile has loaded,
  and a trial that lapses (src/pages/Index.tsx:74 reads the clock on
  each render) lowers it from 4 to 2. The grid never trims itself: a
  lowered limit leaves it over the limit, and only further adds are
  refused (src/components/VideoGrid.tsx:104).
- Commands are atomic in the model: `GridRuns.Run` finishes each one,
  all of its rows included, before the next starts. In the source,
  `trackSessionEnd` awaits the summary insert
  (src/components/VideoGrid.tsx:85) before `session_end` (line 94),
  `addToFavorites` awaits the favorites insert (line 206) before
  `video_favorited` (line 219), and `shareSession` awaits the share sheet
  (line 246) before `session_shared` (line 252). Rows of other handlers
  can come in between. When the stream count changes, the effect's
  cleanup (lines 44-45) and the new effect (lines 35-39) run in one
  commit, so with a signed-in user and both grids non-empty the store
  receives the old summary, then the new `session_start`, then the old
  `session_end` once the summary insert resolves. `Run` never produces
  that interleaving; the order within one command is modelled exactly.
- Column counts per breakpoint (`Layout.ColumnsAt`) interpret the
  `grid-cols`, `md:` and `lg:` utility classes: the class from the widest
  active breakpoint wins. The returned class strings themselves are
  modelled exactly.
- Tiers.TierBadge: its own contract only says when a badge is shown.
  Which badge is shown is stated by `TierProofs.BadgeAgreesWithCapacity`
  and `TierProofs.PremiumOverridesTrial`.
- Sign-in and sign-up forms (src/pages/Auth.tsx), the generated schema
  typings beyond the role and status enums, sign-out, and the landing
  page are not modelled. They have no decision logic of the grid.

=== FILE: Events.dfy ===
/** The rows the grid writes to its backing store, and the signed-in gate of
    `trackAnalytics` (src/components/VideoGrid.tsx). The store is external:
    a record list stands for the inserts issued, in order. */
module Events {
  import opened Wrappers

  type UserId = string

  /** One entry of the `videos` list in a `session_shared` payload. */
  datatype SharedVideo = SharedVideo(id: string, title: string)

  /** The `event_data` object of each analytics event the grid emits. */
  datatype Payload =
    | SessionStart(screenCount: nat, videoIds: seq<string>)
    | SessionEnd(durationSeconds: int, screenCount: nat)
    | VideoAdded(videoId: string, screenCount: nat)
    | VideoRemoved(videoId: string, screenCount: nat)
    | VideoFavorited(videoId: string)
    | SessionShared(videos: seq<SharedVideo>, timestamp: int)

  /** The `event_type` string the source passes with each payload. */
  function EventType(p: Payload): string {
    match p
    case SessionStart(_, _) => "session_start"
    case SessionEnd(_, _) => "session_end"
    case VideoAdded(_, _) => "video_added"
    case VideoRemoved(_, _) => "video_removed"
    case VideoFavorited(_) => "video_favorited"
    case SessionShared(_, _) => "session_shared"
  }

  /** An insert issued to one of the three tables the grid writes. */
  datatype Record =
      /** `user_analytics` */
    | AnalyticsRow(userId: UserId, eventType: string, eventData: Payload, sessionId: string)
      /** `streaming_sessions`; `endedAt` is the clock reading in milliseconds */
    | SessionRow(userId: UserId, sessionId: string, videoIds: seq<string>, screenCount: nat,
                 durationSeconds: int, endedAt: int)
      /** `user_favorites` */
    | FavoriteRow(userId: UserId, videoId: string, title: string, thumbnail: string)

  /** An analytics row for `p` written by `user` in `sessionId`. */
  predicate IsEventRow(r: Record, user: UserId, sessionId: string, p: Payload) {
    r == AnalyticsRow(user, EventType(p), p, sessionId)
  }

  /** `trackAnalytics`: one `user_analytics` insert when someone is signed
      in, nothing otherwise. Delivery failures are only logged by the source,
      so they do not show here. */
  function TrackAnalytics(user: Option<UserId>, sessionId: string, p: Payload): (out: seq<Record>)
    ensures user.None? ==> out == []
    ensures user.Some? ==> |out| == 1 && IsEventRow(out[0], user.value, sessionId, p)
  {
    match user
    case None => []
    case Some(u) => [AnalyticsRow(u, EventType(p), p, sessionId)]
  }
}

=== FILE: GridRuns.dfy ===
/** Whole sessions against the grid: any sequence of adds, removals,
    toggles, session start and end, favorites and shares keeps the grid
    invariant, and an anonymous session writes nothing at all. */
module GridRuns {
  import opened Wrappers
  import opened Events
  import opened VideoIds
  import opened Streams
  import opened StreamProofs
  import opened Sessions
  import VideoIdRoundTrips

  /** A user action on the grid, or the stream-count effect firing; clock
      readings and the settling of awaited calls travel with the command. */
  datatype Command =
    | AddUrl(url: string, now: nat)
    | RemoveHandle(id: string)
    | TogglePlayOf(id: string)
    | ToggleMuteOf(id: string)
    | StartSession
    | EndSession(startMillis: int, nowMillis: int, endedAtMillis: int, summaryInsert: InsertOutcome)
    | FavoriteOf(stream: VideoStream, insert: InsertOutcome)
    | Share(nowMillis: int, nativeShareResolved: bool)

  datatype GridState = GridState(streams: seq<VideoStream>, log: seq<Record>)

  /** One command. The stream-count effect's cleanup ends the session only
      while the grid is non-empty; only adds, removals and toggles change the
      streams; rows are only ever appended to the log. */
  function Step(st: GridState, maxScreens: int, user: Option<UserId>, sessionId: string, c: Command): (next: GridState)
    ensures |st.log| <= |next.log| && next.log[..|st.log|] == st.log
    ensures !(c.AddUrl? || c.RemoveHandle? || c.TogglePlayOf? || c.ToggleMuteOf?) ==> next.streams == st.streams
    ensures c.EndSession? && |st.streams| == 0 ==> next.log == st.log
  {
    match c
    case AddUrl(url, now) =>
      var r := AddVideoStream(st.streams, maxScreens, url, now, user, sessionId);
      GridState(r.streams, st.log + r.emitted)
    case RemoveHandle(id) =>
      var r := RemoveStream(st.streams, id, user, sessionId);
      GridState(r.streams, st.log + r.emitted)
    case TogglePlayOf(id) => GridState(TogglePlayPause(st.streams, id), st.log)
    case ToggleMuteOf(id) => GridState(ToggleMute(st.streams, id), st.log)
    case StartSession => GridState(st.streams, st.log + TrackSessionStart(user, sessionId, st.streams))
    case EndSession(start, now, endedAt, outcome) =>
      var ended := if |st.streams| > 0 then TrackSessionEnd(user, sessionId, st.streams, start, now, endedAt, outcome) else [];
      GridState(st.streams, st.log + ended)
    case FavoriteOf(stream, insert) => GridState(st.streams, st.log + AddToFavorites(user, sessionId, stream, insert).emitted)
    case Share(now, resolved) => GridState(st.streams, st.log + ShareSession(user, sessionId, st.streams, now, resolved).emitted)
  }

  function Run(st: GridState, maxScreens: int, user: Option<UserId>, sessionId: string, cmds: seq<Command>): GridState
    decreases |cmds|
  {
    if |cmds| == 0 then st else Run(Step(st, maxScreens, user, sessionId, cmds[0]), maxScreens, user, sessionId, cmds[1..])
  }

  /** Every command keeps the grid within capacity and free of duplicate videos. */
  lemma StepPreservesValid(st: GridState, maxScreens: int, user: Option<UserId>, sessionId: string, c: Command)
    requires Valid(st.streams, maxScreens)
    ensures Valid(Step(st, maxScreens, user, sessionId, c).streams, maxScreens)
  {
    match c
    case AddUrl(url, now) => AddPreservesValid(st.streams, maxScreens, url, now, user, sessionId);
    case RemoveHandle(id) =>
      FilterKeepsVideosDistinct(st.streams, id);
    case TogglePlayOf(id) =>
      assert forall i :: 0 <= i < |st.streams| ==> TogglePlayPause(st.streams, id)[i].videoId == st.streams[i].videoId;
    case ToggleMuteOf(id) =>
      assert forall i :: 0 <= i < |st.streams| ==> ToggleMute(st.streams, id)[i].videoId == st.streams[i].videoId;
    case _ =>
  }

  /** Filtering a grid without duplicate videos leaves one without
      duplicates; handles need not be distinct for this. */
  lemma {:induction false} FilterKeepsVideosDistinct(streams: seq<VideoStream>, id: string)
    requires UniqueVideoIds(streams)
    ensures UniqueVideoIds(RemoveById(streams, id))
    decreases |streams|
  {
    if |streams| > 0 {
      var tail := streams[1..];
      assert UniqueVideoIds(tail) by {
        forall a, b | 0 <= a < b < |tail| ensures tail[a].videoId != tail[b].videoId {
          assert tail[a] == streams[a + 1] && tail[b] == streams[b + 1];
        }
      }
      FilterKeepsVideosDistinct(tail, id);
      var rest := RemoveById(tail, id);
      if streams[0].id != id {
        var r := [streams[0]] + rest;
        forall x | x in rest ensures x.videoId != streams[0].videoId {
          var b :| 0 <= b < |tail| && tail[b] == x;
          assert streams[b + 1] == x;
        }
        forall i, j | 0 <= i < j < |r| ensures r[i].videoId != r[j].videoId {
          assert r[j] == rest[j - 1];
          if i > 0 {
            assert r[i] == rest[i - 1];
          }
        }
      }
    }
  }

  /** Any session, however long, keeps the grid within capacity and free of
      duplicate videos. */
  lemma {:induction false} RunPreservesValid(st: GridState, maxScreens: int, user: Option<UserId>,
                                             sessionId: string, cmds: seq<Command>)
    requires Valid(st.streams, maxScreens)
    ensures Valid(Run(st, maxScreens, user, sessionId, cmds).streams, maxScreens)
    decreases |cmds|
  {
    if |cmds| > 0 {
      StepPreservesValid(st, maxScreens, user, sessionId, cmds[0]);
      RunPreservesValid(Step(st, maxScreens, user, sessionId, cmds[0]), maxScreens, user, sessionId, cmds[1..]);
    }
  }

  /** Without a signed-in user no command writes anything, so the log of an
      anonymous session never grows, whatever the store and the share call do. */
  lemma {:induction false} AnonymousRunLogsNothing(st: GridState, maxScreens: int, sessionId: string, cmds: seq<Command>)
    ensures Run(st, maxScreens, None, sessionId, cmds).log == st.log
    decreases |cmds|
  {
    if |cmds| > 0 {
      var next := Step(st, maxScreens, None, sessionId, cmds[0]);
      assert next.log == st.log;
      AnonymousRunLogsNothing(next, maxScreens, sessionId, cmds[1..]);
    }
  }

  /** A worked session with capacity 2: a short link is added, the same
      video as a watch-page URL is refused as a duplicate, a second video is
      added, and a third add is refused because the grid is full. */
  lemma CapacityTwoSession(user: Option<UserId>, sessionId: string)
    ensures var s1 := AddVideoStream([], 2, ShortUrl("abc123"), 1, user, sessionId);
      && s1.error.None? && |s1.streams| == 1
      && var s2 := AddVideoStream(s1.streams, 2, WatchUrl("abc123"), 2, user, sessionId);
      && s2.error == Some(AlreadyAdded) && s2.streams == s1.streams
      && var s3 := AddVideoStream(s1.streams, 2, WatchUrl("xyz789"), 3, user, sessionId);
      && s3.error.None? && |s3.streams| == 2
      && AddVideoStream(s3.streams, 2, ShortUrl("def456"), 4, user, sessionId).error == Some(MaxScreensReached)
  {
    assert IsVideoToken("abc123");
    assert IsVideoToken("xyz789");
    VideoIdRoundTrips.ShortShapeRoundTrip("abc123");
    VideoIdRoundTrips.WatchShapeRoundTrip("abc123");
    VideoIdRoundTrips.WatchShapeRoundTrip("xyz789");
    var s1 := AddVideoStream([], 2, ShortUrl("abc123"), 1, user, sessionId);
    assert s1.streams[0].videoId == "abc123";
    assert HasVideo(s1.streams, "abc123");
    assert !HasVideo(s1.streams, "xyz789") by {
      assert "abc123"[0] != "xyz789"[0];
    }
  }
}

=== FILE: Layout.dfy ===
/** `getGridLayout` (src/components/VideoGrid.tsx): the responsive column
    classes of the grid as a function of the number of streams. A class list
    is modelled as a sequence of column classes, each active from one
    breakpoint upwards; the class string the source returns is its rendering. */
module Layout {
  import opened Wrappers

  /** The viewport widths the classes distinguish: below `md`, `md`, `lg` and up. */
  datatype Breakpoint = Base | Md | Lg

  function Rank(b: Breakpoint): nat {
    match b
    case Base => 0
    case Md => 1
    case Lg => 2
  }

  /** `grid-cols-N`, `md:grid-cols-N` or `lg:grid-cols-N`. */
  datatype ColumnClass = ColumnClass(from: Breakpoint, columns: nat)

  predicate IsRenderable(cs: seq<ColumnClass>) {
    forall i :: 0 <= i < |cs| ==> 1 <= cs[i].columns <= 9
  }

  function ClassName(c: ColumnClass): string
    requires 1 <= c.columns <= 9
  {
    var prefix := match c.from
      case Base => ""
      case Md => "md:"
      case Lg => "lg:";
    prefix + "grid-cols-" + ['0' + c.columns as char]
  }

  /** The space-separated class string. */
  function Render(cs: seq<ColumnClass>): string
    requires IsRenderable(cs)
  {
    if |cs| == 0 then ""
    else if |cs| == 1 then ClassName(cs[0])
    else ClassName(cs[0]) + " " + Render(cs[1..])
  }

  /** The `switch (streams.length)` of `getGridLayout`. */
  function GridClasses(count: nat): (cs: seq<ColumnClass>)
    ensures IsRenderable(cs)
  {
    if count == 1 then OneColumn
    else if count == 2 || count == 4 then TwoColumns
    else ThreeColumns
  }

  const OneColumn: seq<ColumnClass> := [ColumnClass(Base, 1)]
  const TwoColumns: seq<ColumnClass> := [ColumnClass(Base, 1), ColumnClass(Md, 2)]
  const ThreeColumns: seq<ColumnClass> := [ColumnClass(Base, 1), ColumnClass(Md, 2), ColumnClass(Lg, 3)]

  function GridLayout(count: nat): string {
    Render(GridClasses(count))
  }

  /** The class in effect at width `bp`: among the classes active there, the
      one from the widest breakpoint (the later one on a tie). */
  function Winner(cs: seq<ColumnClass>, bp: Breakpoint): (r: Option<ColumnClass>)
    ensures r.None? <==> forall i :: 0 <= i < |cs| ==> Rank(cs[i].from) > Rank(bp)
    ensures r.Some? ==> r.value in cs && Rank(r.value.from) <= Rank(bp)
    ensures r.Some? ==> forall i :: 0 <= i < |cs| && Rank(cs[i].from) <= Rank(bp) ==> Rank(cs[i].from) <= Rank(r.value.from)
  {
    if |cs| == 0 then None
    else
      var later := Winner(cs[1..], bp);
      assert forall i :: 1 <= i < |cs| ==> cs[i] == cs[1..][i - 1];
      if Rank(cs[0].from) > Rank(bp) then later
      else if later.Some? && Rank(later.value.from) >= Rank(cs[0].from) then later
      else Some(cs[0])
  }

  /** The number of columns shown at width `bp`; a grid with no column class has one. */
  function ColumnsAt(cs: seq<ColumnClass>, bp: Breakpoint): nat {
    match Winner(cs, bp)
    case None => 1
    case Some(c) => c.columns
  }

  /** Columns at the widest breakpoint: 1, 2, 3, 2, then 3 from five streams on. */
  function WideColumns(count: nat): nat
    requires count >= 1
  {
    match count
    case 1 => 1
    case 2 => 2
    case 3 => 3
    case 4 => 2
    case _ => 3
  }

  /** The grid is drawn only when there is at least one stream; otherwise the
      empty-state card is shown instead. */
  function DisplayedLayout(count: nat): (r: Option<string>)
    ensures r.None? <==> count == 0
    ensures r.Some? ==> r.value == GridLayout(count)
  {
    if count > 0 then Some(GridLayout(count)) else None
  }
}

module LayoutProofs {
  import opened Wrappers
  import opened Layout

  /** The exact class strings `getGridLayout` returns. */
  lemma GridLayoutStrings(count: nat)
    ensures GridLayout(count) == "grid-cols-1" <==> count == 1
    ensures GridLayout(count) == "grid-cols-1 md:grid-cols-2" <==> count == 2 || count == 4
    ensures GridLayout(count) == "grid-cols-1 md:grid-cols-2 lg:grid-cols-3" <==>
      count == 0 || count == 3 || count >= 5
  {
    RenderedClassStrings();
    var s := GridLayout(count);
    assert |s| == (if count == 1 then 11 else if count == 2 || count == 4 then 26 else 41);
  }

  /** The renderings of the three class lists. */
  lemma RenderedClassStrings()
    ensures Render(OneColumn) == "grid-cols-1"
    ensures Render(TwoColumns) == "grid-cols-1 md:grid-cols-2"
    ensures Render(ThreeColumns) == "grid-cols-1 md:grid-cols-2 lg:grid-cols-3"
  {
    RenderedMediumClasses();
    RenderedWideClasses();
  }

  lemma RenderedMediumClasses()
    ensures Render(TwoColumns) == "grid-cols-1 md:grid-cols-2"
  {
    assert Render(TwoColumns[1..]) == "md:grid-cols-2";
  }

  lemma RenderedWideClasses()
    ensures Render(ThreeColumns) == "grid-cols-1 md:grid-cols-2 lg:grid-cols-3"
  {
    RenderedWideTail();
    var tail := ThreeColumns[1..];
    assert Render(ThreeColumns) == "grid-cols-1" + " " + Render(tail);
    WideClassString();
  }

  /** The three-column class string is its base class, a space and its responsive classes. */
  lemma WideClassString()
    ensures "grid-cols-1" + " " + "md:grid-cols-2 lg:grid-cols-3" == "grid-cols-1 md:grid-cols-2 lg:grid-cols-3"
  {
  }

  lemma RenderedWideTail()
    ensures Render(ThreeColumns[1..]) == "md:grid-cols-2 lg:grid-cols-3"
  {
  }

  /** Columns per breakpoint of each of the three class lists. */
  lemma ColumnsOfEachLayout()
    ensures ColumnsAt(OneColumn, Base) == 1 && ColumnsAt(OneColumn, Md) == 1 && ColumnsAt(OneColumn, Lg) == 1
    ensures ColumnsAt(TwoColumns, Base) == 1 && ColumnsAt(TwoColumns, Md) == 2 && ColumnsAt(TwoColumns, Lg) == 2
    ensures ColumnsAt(ThreeColumns, Base) == 1 && ColumnsAt(ThreeColumns, Md) == 2 && ColumnsAt(ThreeColumns, Lg) == 3
  {
    ColumnsOfOneColumn();
    ColumnsOfTwoColumns();
    ColumnsOfThreeColumns();
  }

  lemma ColumnsOfOneColumn()
    ensures ColumnsAt(OneColumn, Base) == 1 && ColumnsAt(OneColumn, Md) == 1 && ColumnsAt(OneColumn, Lg) == 1
  {
  }

  lemma ColumnsOfTwoColumns()
    ensures ColumnsAt(TwoColumns, Base) == 1 && ColumnsAt(TwoColumns, Md) == 2 && ColumnsAt(TwoColumns, Lg) == 2
  {
  }

  lemma ColumnsOfThreeColumns()
    ensures ColumnsAt(ThreeColumns, Base) == 1 && ColumnsAt(ThreeColumns, Md) == 2 && ColumnsAt(ThreeColumns, Lg) == 3
  {
  }

  /** No breakpoint shows more columns than the widest one does. */
  lemma ColumnsAtMostWidest(cs: seq<ColumnClass>, bp: Breakpoint)
    requires cs == OneColumn || cs == TwoColumns || cs == ThreeColumns
    ensures ColumnsAt(cs, bp) <= ColumnsAt(cs, Lg)
  {
  }

  /** Every displayed grid shows one column on narrow screens, follows the
      1/2/3/2/3 column table on wide screens, never shows more columns than
      streams, and fills every row when there are at most four streams. */
  lemma DisplayedColumns(count: nat)
    requires DisplayedLayout(count).Some?
    ensures ColumnsAt(GridClasses(count), Base) == 1
    ensures ColumnsAt(GridClasses(count), Lg) == WideColumns(count)
    ensures forall bp :: ColumnsAt(GridClasses(count), bp) <= count
    ensures count <= 4 ==> count % ColumnsAt(GridClasses(count), Lg) == 0
  {
    ColumnsOfEachLayout();
    var cs := GridClasses(count);
    if count == 1 {
      assert cs == OneColumn;
    } else if count == 2 {
      assert cs == TwoColumns;
    } else if count == 3 {
      assert cs == ThreeColumns;
    } else if count == 4 {
      assert cs == TwoColumns;
    } else {
      assert cs == ThreeColumns && count > 4;
    }
    forall bp ensures ColumnsAt(cs, bp) <= count {
      ColumnsAtMostWidest(cs, bp);
    }
  }
}

=== FILE: Sessions.dfy ===
/** The session analytics of the grid (src/components/VideoGrid.tsx):
    `session_start`, `trackSessionEnd`, `addToFavorites` and `shareSession`.
    Clock readings are millisecond parameters; each awaited insert or share
    call gets an explicit outcome parameter, since its result comes from
    outside the grid. */
module Sessions {
  import opened Wrappers
  import opened Events
  import opened Streams

  /** How an awaited insert settled: resolved, or rejected with an error code. */
  datatype InsertOutcome = Resolved | Rejected(code: string)

  /** The database error code for a unique-constraint violation. */
  const UniqueViolation: string := "23505"

  /** `streams.map(s => s.videoId)`. */
  function StreamVideoIds(streams: seq<VideoStream>): (ids: seq<string>)
    ensures |ids| == |streams|
    ensures forall i :: 0 <= i < |ids| ==> ids[i] == streams[i].videoId
  {
    if |streams| == 0 then [] else [streams[0].videoId] + StreamVideoIds(streams[1..])
  }

  /** The analytics the grid issues when its stream count settles at a
      non-zero value: `session_start` with the count and the videos in order. */
  function TrackSessionStart(user: Option<UserId>, sessionId: string, streams: seq<VideoStream>): (out: seq<Record>)
    ensures |streams| == 0 || user.None? ==> out == []
    ensures |streams| > 0 && user.Some? ==>
      out == [AnalyticsRow(user.value, "session_start", SessionStart(|streams|, StreamVideoIds(streams)), sessionId)]
  {
    if |streams| > 0 then TrackAnalytics(user, sessionId, SessionStart(|streams|, StreamVideoIds(streams))) else []
  }

  /** `Math.floor((now - start) / 1000)`: whole seconds elapsed, rounded
      down (also when the clock went backwards). */
  function DurationSeconds(startMillis: int, nowMillis: int): (d: int)
    ensures d * 1000 <= nowMillis - startMillis < d * 1000 + 1000
  {
    (nowMillis - startMillis) / 1000
  }

  /** `trackSessionEnd`: with a signed-in user, first the `streaming_sessions`
      summary, then (once that insert resolved) `session_end` with the same
      duration and count. Nothing at all without a user. The source reads
      the clock twice: `nowMillis` for the duration, then `endedAtMillis`
      for `ended_at`. */
  function TrackSessionEnd(user: Option<UserId>, sessionId: string, streams: seq<VideoStream>,
                           startMillis: int, nowMillis: int, endedAtMillis: int,
                           summaryInsert: InsertOutcome): (out: seq<Record>)
    ensures user.None? ==> out == []
    ensures user.Some? ==>
      && |out| == (if summaryInsert.Resolved? then 2 else 1)
      && out[0].SessionRow? && out[0].userId == user.value && out[0].sessionId == sessionId
      && out[0].videoIds == StreamVideoIds(streams) && out[0].screenCount == |streams|
      && out[0].endedAt == endedAtMillis
      && out[0].durationSeconds * 1000 <= nowMillis - startMillis < out[0].durationSeconds * 1000 + 1000
    ensures user.Some? && summaryInsert.Resolved? ==>
      IsEventRow(out[1], user.value, sessionId, SessionEnd(out[0].durationSeconds, out[0].screenCount))
  {
    match user
    case None => []
    case Some(u) =>
      var duration := DurationSeconds(startMillis, nowMillis);
      var summary := SessionRow(u, sessionId, StreamVideoIds(streams), |streams|, duration, endedAtMillis);
      if summaryInsert.Resolved? then [summary] + TrackAnalytics(user, sessionId, SessionEnd(duration, |streams|))
      else [summary]
  }

  /** The toast `addToFavorites` ends with. */
  datatype FavoriteNotice = SignInRequired | AddedToFavorites | AlreadyInFavorites | FavoriteFailed

  datatype FavoriteResult = FavoriteResult(notice: FavoriteNotice, emitted: seq<Record>)

  /** `addToFavorites`: refused without a user; otherwise one `user_favorites`
      insert, followed by `video_favorited` only if it resolved. A rejection
      with the unique-violation code is reported as already saved, any other
      rejection as a generic failure. */
  function AddToFavorites(user: Option<UserId>, sessionId: string, stream: VideoStream,
                          insert: InsertOutcome): (r: FavoriteResult)
    ensures r.notice == SignInRequired <==> user.None?
    ensures user.None? ==> r.emitted == []
    ensures r.notice == AddedToFavorites <==> user.Some? && insert.Resolved?
    ensures r.notice == AlreadyInFavorites <==> user.Some? && insert == Rejected(UniqueViolation)
    ensures user.Some? ==>
      && |r.emitted| == (if insert.Resolved? then 2 else 1)
      && r.emitted[0] == FavoriteRow(user.value, stream.videoId, stream.title, stream.thumbnail)
    ensures user.Some? && insert.Resolved? ==>
      IsEventRow(r.emitted[1], user.value, sessionId, VideoFavorited(stream.videoId))
  {
    match user
    case None => FavoriteResult(SignInRequired, [])
    case Some(u) =>
      var row := FavoriteRow(u, stream.videoId, stream.title, stream.thumbnail);
      match insert
      case Resolved => FavoriteResult(AddedToFavorites, [row] + TrackAnalytics(user, sessionId, VideoFavorited(stream.videoId)))
      case Rejected(code) =>
        FavoriteResult(if code == UniqueViolation then AlreadyInFavorites else FavoriteFailed, [row])
  }

  function SharedVideos(streams: seq<VideoStream>): (vs: seq<SharedVideo>)
    ensures |vs| == |streams|
    ensures forall i :: 0 <= i < |vs| ==> vs[i] == SharedVideo(streams[i].videoId, streams[i].title)
  {
    if |streams| == 0 then [] else [SharedVideo(streams[0].videoId, streams[0].title)] + SharedVideos(streams[1..])
  }

  datatype ShareResult = ShareResult(emitted: seq<Record>, copiedLink: bool)

  /** `shareSession` with the clock at `nowMillis` when the payload is built:
      `session_shared` is issued only after the native share call resolved;
      otherwise the page link is copied and nothing is issued. */
  function ShareSession(user: Option<UserId>, sessionId: string, streams: seq<VideoStream>,
                        nowMillis: int, nativeShareResolved: bool): (r: ShareResult)
    ensures r.copiedLink <==> !nativeShareResolved
    ensures |r.emitted| == (if nativeShareResolved && user.Some? then 1 else 0)
    ensures |r.emitted| == 1 ==>
      IsEventRow(r.emitted[0], user.value, sessionId, SessionShared(SharedVideos(streams), nowMillis))
  {
    var payload := SessionShared(SharedVideos(streams), nowMillis);
    if nativeShareResolved then ShareResult(TrackAnalytics(user, sessionId, payload), false)
    else ShareResult([], true)
  }
}

module SessionProofs {
  import opened Wrappers
  import opened Events
  import opened Streams
  import opened VideoIds
  import opened Sessions

  /** A session ended 125 s (and up to 999 ms more) after it started records
      a duration of 125 s, in the summary and in `session_end` alike. */
  lemma SessionEndAfter125Seconds(user: UserId, sessionId: string, streams: seq<VideoStream>, t0: int, extra: nat,
                                  endedAt: int)
    requires extra < 1000
    ensures var out := TrackSessionEnd(Some(user), sessionId, streams, t0, t0 + 125000 + extra, endedAt, Resolved);
      out[0].durationSeconds == 125 && out[1].eventData == SessionEnd(125, |streams|)
  {
    DurationIsFloor(t0, t0 + 125000 + extra, 125);
  }

  /** A share lists the same videos, in the same order, as `session_start`
      and the session summary do. */
  lemma ShareListsSessionVideos(streams: seq<VideoStream>)
    ensures |SharedVideos(streams)| == |StreamVideoIds(streams)|
    ensures forall i :: 0 <= i < |streams| ==> SharedVideos(streams)[i].id == StreamVideoIds(streams)[i]
  {
  }

  /** After a successful add, the grid's video list (the one `session_start`
      and the session summary report) is the earlier videos followed by the
      extracted one. */
  lemma AddedVideoIsListed(streams: seq<VideoStream>, maxScreens: int, url: string, now: nat,
                           user: Option<UserId>, sessionId: string)
    requires AddVideoStream(streams, maxScreens, url, now, user, sessionId).error.None?
    ensures var next := AddVideoStream(streams, maxScreens, url, now, user, sessionId).streams;
      StreamVideoIds(next) == StreamVideoIds(streams) + [ExtractVideoId(url).value]
  {
    var added := AddAppendsOne(streams, maxScreens, url, now, user, sessionId);
    VideoIdsOfAppend(streams, added);
  }

  /** A successful add extends the grid by exactly one stream showing the
      extracted video. */
  lemma AddAppendsOne(streams: seq<VideoStream>, maxScreens: int, url: string, now: nat,
                      user: Option<UserId>, sessionId: string) returns (added: VideoStream)
    requires AddVideoStream(streams, maxScreens, url, now, user, sessionId).error.None?
    ensures AddVideoStream(streams, maxScreens, url, now, user, sessionId).streams == streams + [added]
    ensures ExtractVideoId(url) == Some(added.videoId)
  {
    var r := AddVideoStream(streams, maxScreens, url, now, user, sessionId);
    added := r.streams[|streams|];
    assert r.streams == r.streams[..|streams|] + [added];
  }

  /** `session_start` once one more stream has joined reports the grown count
      and lists the earlier videos, then the new one. */
  lemma AppendIsListed(user: UserId, sessionId: string, streams: seq<VideoStream>, added: VideoStream)
    ensures StreamVideoIds(streams + [added]) == StreamVideoIds(streams) + [added.videoId]
    ensures TrackSessionStart(Some(user), sessionId, streams + [added])[0].eventData
      == SessionStart(|streams| + 1, StreamVideoIds(streams) + [added.videoId])
  {
    VideoIdsOfAppend(streams, added);
  }

  lemma VideoIdsOfAppend(streams: seq<VideoStream>, s: VideoStream)
    ensures StreamVideoIds(streams + [s]) == StreamVideoIds(streams) + [s.videoId]
  {
    assert |StreamVideoIds(streams + [s])| == |StreamVideoIds(streams) + [s.videoId]|;
  }

  /** The toast of `addToFavorites` agrees with what it wrote: the saved
      notice exactly when `video_favorited` follows the favorites row, and
      the generic failure exactly for a rejection with another code. */
  lemma FavoriteNoticeMatchesLog(user: UserId, sessionId: string, stream: VideoStream, insert: InsertOutcome)
    ensures var r := AddToFavorites(Some(user), sessionId, stream, insert);
      && (r.notice == AddedToFavorites <==> |r.emitted| == 2)
      && (r.notice == FavoriteFailed <==> insert.Rejected? && insert.code != UniqueViolation)
      && (|r.emitted| == 2 ==> r.emitted[1].eventData.videoId == r.emitted[0].videoId)
  {
  }

  /** The duration is the unique whole number of seconds that brackets the
      elapsed milliseconds, so it never exceeds the elapsed time and falls
      short of it by less than a second. */
  lemma DurationIsFloor(startMillis: int, nowMillis: int, d: int)
    requires d * 1000 <= nowMillis - startMillis < d * 1000 + 1000
    ensures DurationSeconds(startMillis, nowMillis) == d
  {
  }
}

=== FILE: StreamProofs.dfy ===
/** Properties of the stream-collection transitions: the grid invariant is
    kept, removal is an order-preserving deletion, a removed video can be
    added again, and the toggles are involutions that touch nothing else. */
module StreamProofs {
  import opened Wrappers
  import opened Events
  import opened VideoIds
  import opened Streams
  import VideoIdRoundTrips

  // ---------------------------------------------------------------- add

  /** A successful add happens only below capacity and only for a new video,
      so the grid invariant survives every add. */
  lemma AddPreservesValid(streams: seq<VideoStream>, maxScreens: int, url: string, now: nat,
                          user: Option<UserId>, sessionId: string)
    requires Valid(streams, maxScreens)
    ensures Valid(AddVideoStream(streams, maxScreens, url, now, user, sessionId).streams, maxScreens)
  {
  }

  /** Handles stay distinct when the clock reading gives a handle not yet in use. */
  lemma AddKeepsHandlesDistinct(streams: seq<VideoStream>, maxScreens: int, url: string, now: nat,
                                user: Option<UserId>, sessionId: string)
    requires UniqueStreamIds(streams) && !HasStream(streams, StreamId(now))
    ensures UniqueStreamIds(AddVideoStream(streams, maxScreens, url, now, user, sessionId).streams)
  {
  }

  /** Handles come from the clock: two readings give the same handle only
      when they are equal. */
  lemma StreamIdsDistinct(a: nat, b: nat)
    ensures StreamId(a) == StreamId(b) <==> a == b
  {
    if StreamId(a) == StreamId(b) {
      assert NatToString(a) == StreamId(a)[7..];
      assert NatToString(b) == StreamId(b)[7..];
    }
  }

  /** Below capacity, text in which no marker occurs is refused as an invalid
      URL, and the grid and the log stay as they were. */
  lemma UnparseableUrlIsRefused(streams: seq<VideoStream>, maxScreens: int, url: string, now: nat,
                                user: Option<UserId>, sessionId: string)
    requires |streams| < maxScreens
    requires !Mentions(url, WatchMarker) && !Mentions(url, ShortMarker) && !Mentions(url, EmbedMarker)
    ensures var r := AddVideoStream(streams, maxScreens, url, now, user, sessionId);
      r.error == Some(InvalidUrl) && r.streams == streams && r.emitted == []
  {
    VideoIdRoundTrips.NotAUrlIsRejected(url);
  }

  /** Once a video is in the grid, the same video pasted in another URL shape
      is refused as a duplicate (unless the grid is full, which is checked first). */
  lemma SameVideoOtherShapeIsDuplicate(streams: seq<VideoStream>, maxScreens: int, t: string, now: nat,
                                       later: nat, user: Option<UserId>, sessionId: string)
    requires IsPathSafeToken(t)
    requires AddVideoStream(streams, maxScreens, WatchUrl(t), now, user, sessionId).error.None?
    ensures var next := AddVideoStream(streams, maxScreens, WatchUrl(t), now, user, sessionId).streams;
      && AddVideoStream(next, maxScreens, ShortUrl(t), later, user, sessionId).error.Some?
      && AddVideoStream(next, maxScreens, EmbedUrl(t), later, user, sessionId).error.Some?
      && (|next| < maxScreens ==>
           && AddVideoStream(next, maxScreens, ShortUrl(t), later, user, sessionId).error == Some(AlreadyAdded)
           && AddVideoStream(next, maxScreens, EmbedUrl(t), later, user, sessionId).error == Some(AlreadyAdded))
  {
    VideoIdRoundTrips.ShapesAgree(t);
    var next := AddVideoStream(streams, maxScreens, WatchUrl(t), now, user, sessionId).streams;
    assert next[|streams|].videoId == t;
    assert HasVideo(next, t);
  }

  // ------------------------------------------------------------- remove

  /** Filtering distributes over concatenation: the kept streams stay in
      their original order. */
  lemma {:induction false} RemoveByIdDistributes(a: seq<VideoStream>, b: seq<VideoStream>, id: string)
    ensures RemoveById(a + b, id) == RemoveById(a, id) + RemoveById(b, id)
    decreases |a|
  {
    if |a| == 0 {
      assert a + b == b;
    } else {
      assert (a + b)[1..] == a[1..] + b;
      RemoveByIdDistributes(a[1..], b, id);
    }
  }

  /** With distinct handles, removing the stream at position `k` deletes
      exactly that position and keeps the rest in order. */
  lemma RemoveIsDeletion(streams: seq<VideoStream>, k: nat, id: string)
    requires UniqueStreamIds(streams) && k < |streams| && streams[k].id == id
    ensures RemoveById(streams, id) == streams[..k] + streams[k + 1..]
  {
    assert streams == streams[..k] + ([streams[k]] + streams[k + 1..]);
    RemoveByIdDistributes(streams[..k], [streams[k]] + streams[k + 1..], id);
    RemoveByIdDistributes([streams[k]], streams[k + 1..], id);
    assert !HasStream(streams[..k], id) by {
      forall i | 0 <= i < k ensures streams[..k][i].id != id {
        assert streams[..k][i] == streams[i];
      }
    }
    var tail := streams[k + 1..];
    assert !HasStream(tail, id) by {
      forall i | 0 <= i < |tail| ensures tail[i].id != id {
        assert tail[i] == streams[k + 1 + i];
      }
    }
    assert RemoveById([streams[k]], id) == [] by {
      assert [streams[k]][1..] == [];
    }
  }

  /** With distinct handles, the `screen_count` that `removeStream` reports
      is the size of the grid after the removal, and the reported video is
      the one that left. */
  lemma RemoveReportsNewSize(streams: seq<VideoStream>, k: nat, user: UserId, sessionId: string)
    requires UniqueStreamIds(streams) && k < |streams|
    ensures var r := RemoveStream(streams, streams[k].id, Some(user), sessionId);
      && |r.streams| == |streams| - 1
      && r.emitted == [AnalyticsRow(user, "video_removed", VideoRemoved(streams[k].videoId, |r.streams|), sessionId)]
  {
    var id := streams[k].id;
    RemoveIsDeletion(streams, k, id);
    assert HasStream(streams, id);
    var f := FindById(streams, id).value;
    var i :| 0 <= i < |streams| && streams[i] == f && (forall j :: 0 <= j < i ==> streams[j].id != id);
    assert i == k;
  }

  /** Deleting one position keeps videos and handles distinct. */
  lemma DeletionKeepsUnique(streams: seq<VideoStream>, k: nat)
    requires k < |streams|
    ensures UniqueVideoIds(streams) ==> UniqueVideoIds(streams[..k] + streams[k + 1..])
    ensures UniqueStreamIds(streams) ==> UniqueStreamIds(streams[..k] + streams[k + 1..])
  {
  }

  /** Removal keeps the grid invariant and distinct handles. */
  lemma RemovePreservesValid(streams: seq<VideoStream>, maxScreens: int, id: string,
                             user: Option<UserId>, sessionId: string)
    requires Valid(streams, maxScreens) && UniqueStreamIds(streams)
    ensures var next := RemoveStream(streams, id, user, sessionId).streams;
      Valid(next, maxScreens) && UniqueStreamIds(next)
  {
    if HasStream(streams, id) {
      var k :| 0 <= k < |streams| && streams[k].id == id;
      RemoveIsDeletion(streams, k, id);
      DeletionKeepsUnique(streams, k);
    }
  }

  /** No uniqueness constraint outlives a removal: a video that was in the
      grid can be added again straight after its stream is removed, also
      when other streams share its handle (two adds in one millisecond). */
  lemma RemoveThenReAdd(streams: seq<VideoStream>, maxScreens: int, k: nat, url: string, now: nat,
                        user: Option<UserId>, sessionId: string)
    requires Valid(streams, maxScreens) && k < |streams|
    requires ExtractVideoId(url) == Some(streams[k].videoId)
    ensures AddVideoStream(streams, maxScreens, url, now, user, sessionId).error.Some?
    ensures var next := RemoveStream(streams, streams[k].id, user, sessionId).streams;
      AddVideoStream(next, maxScreens, url, now, user, sessionId).error.None?
  {
    assert HasVideo(streams, streams[k].videoId);
    assert HasStream(streams, streams[k].id);
    RemoveShrinks(streams, streams[k].id);
    RemovedVideoIsGone(streams, k);
  }

  /** Removing a handle some stream carries makes the grid strictly smaller. */
  lemma {:induction false} RemoveShrinks(streams: seq<VideoStream>, id: string)
    requires HasStream(streams, id)
    ensures |RemoveById(streams, id)| < |streams|
  {
    if streams[0].id != id {
      var i :| 0 <= i < |streams| && streams[i].id == id;
      assert streams[1..][i - 1].id == id;
      RemoveShrinks(streams[1..], id);
    }
  }

  /** With each video shown at most once, removing the handle of the stream
      showing a video leaves no stream showing it. */
  lemma RemovedVideoIsGone(streams: seq<VideoStream>, k: nat)
    requires UniqueVideoIds(streams) && k < |streams|
    ensures !HasVideo(RemoveById(streams, streams[k].id), streams[k].videoId)
  {
    var next := RemoveById(streams, streams[k].id);
    forall i | 0 <= i < |next| ensures next[i].videoId != streams[k].videoId {
      assert next[i] in streams;
      var j :| 0 <= j < |streams| && streams[j] == next[i];
      assert j != k;
    }
  }

  // ------------------------------------------------------------- toggles

  /** Toggling the same flag of the same stream twice restores the grid. */
  lemma ToggleTwiceIsIdentity(streams: seq<VideoStream>, id: string, f: Flag)
    ensures ToggleFlag(ToggleFlag(streams, id, f), id, f) == streams
  {
  }

  /** A toggle for a handle no stream has changes nothing. */
  lemma ToggleUnknownIsNoop(streams: seq<VideoStream>, id: string, f: Flag)
    requires !HasStream(streams, id)
    ensures ToggleFlag(streams, id, f) == streams
  {
  }

  /** Play/pause and mute act on independent fields, so their order does not matter. */
  lemma TogglesCommute(streams: seq<VideoStream>, a: string, f: Flag, b: string, g: Flag)
    ensures ToggleFlag(ToggleFlag(streams, a, f), b, g) == ToggleFlag(ToggleFlag(streams, b, g), a, f)
  {
  }

  /** Toggles keep every handle and video in place, hence the invariant. */
  lemma TogglePreservesValid(streams: seq<VideoStream>, maxScreens: int, id: string, f: Flag)
    requires Valid(streams, maxScreens) && UniqueStreamIds(streams)
    ensures var next := ToggleFlag(streams, id, f);
      Valid(next, maxScreens) && UniqueStreamIds(next)
  {
    var next := ToggleFlag(streams, id, f);
    assert forall i :: 0 <= i < |next| ==> next[i].id == streams[i].id && next[i].videoId == streams[i].videoId;
  }
}

=== FILE: Streams.dfy ===
/** The stream collection of the grid (src/components/VideoGrid.tsx): the
    `VideoStream` record, `addVideoStream`, `removeStream`, `togglePlayPause`
    and `toggleMute`. Each operation is a pure transition from the current
    streams to the next ones plus the analytics rows it issues. */
module Streams {
  import opened Wrappers
  import opened Events
  import opened VideoIds

  datatype VideoStream = VideoStream(
    id: string,
    url: string,
    title: string,
    videoId: string,
    thumbnail: string,
    isPlaying: bool,
    isMuted: bool)

  predicate IsDigits(s: string) {
    forall i :: 0 <= i < |s| ==> '0' <= s[i] <= '9'
  }

  /** The number a string of decimal digits denotes, most significant first. */
  function DigitValue(s: string): nat
    requires IsDigits(s)
  {
    if |s| == 0 then 0
    else DigitValue(s[..|s| - 1]) * 10 + (s[|s| - 1] as int - '0' as int)
  }

  /** Decimal rendering of a natural number, as a template literal prints it:
      digits only, no leading zero, and they spell `n`. */
  function NatToString(n: nat): (s: string)
    ensures |s| > 0 && IsDigits(s)
    ensures s[0] == '0' ==> n == 0
    ensures DigitValue(s) == n
    decreases n
  {
    var d := ['0' + (n % 10) as char];
    if n < 10 then d
    else
      var high := NatToString(n / 10);
      assert (high + d)[..|high + d| - 1] == high;
      high + d
  }

  /** `stream_${Date.now()}` for a clock reading of `now` milliseconds. */
  function StreamId(now: nat): string {
    "stream_" + NatToString(now)
  }

  function ThumbnailUrl(videoId: string): string {
    "https://img.youtube.com/vi/" + videoId + "/mqdefault.jpg"
  }

  predicate HasVideo(streams: seq<VideoStream>, videoId: string) {
    exists i :: 0 <= i < |streams| && streams[i].videoId == videoId
  }

  predicate HasStream(streams: seq<VideoStream>, id: string) {
    exists i :: 0 <= i < |streams| && streams[i].id == id
  }

  /** No two streams show the same video. */
  predicate UniqueVideoIds(streams: seq<VideoStream>) {
    forall i, j :: 0 <= i < j < |streams| ==> streams[i].videoId != streams[j].videoId
  }

  /** No two streams share a handle. */
  predicate UniqueStreamIds(streams: seq<VideoStream>) {
    forall i, j :: 0 <= i < j < |streams| ==> streams[i].id != streams[j].id
  }

  /** The invariant of the grid: within capacity, each video at most once. */
  predicate Valid(streams: seq<VideoStream>, maxScreens: int) {
    |streams| <= maxScreens && UniqueVideoIds(streams)
  }

  // ---------------------------------------------------------------- add

  /** The destructive toasts `addVideoStream` can raise. */
  datatype AddError = MaxScreensReached | InvalidUrl | AlreadyAdded

  datatype AddResult = AddResult(streams: seq<VideoStream>, emitted: seq<Record>, error: Option<AddError>)

  /** The record `addVideoStream` builds for a video at 1-based position `position`. */
  function NewStream(url: string, videoId: string, now: nat, position: nat): VideoStream {
    VideoStream(StreamId(now), url, "YouTube Video " + NatToString(position), videoId,
                ThumbnailUrl(videoId), false, false)
  }

  /** `addVideoStream` with the input box holding `url`, the clock at `now`
      milliseconds and `user` signed in or not. The guards run in the
      source's order: capacity, then the URL, then the duplicate check. */
  function AddVideoStream(streams: seq<VideoStream>, maxScreens: int, url: string, now: nat,
                          user: Option<UserId>, sessionId: string): (r: AddResult)
    ensures r.error == Some(MaxScreensReached) <==> |streams| >= maxScreens
    ensures r.error == Some(InvalidUrl) <==> |streams| < maxScreens && ExtractVideoId(url).None?
    ensures r.error == Some(AlreadyAdded) <==>
      |streams| < maxScreens && ExtractVideoId(url).Some? && HasVideo(streams, ExtractVideoId(url).value)
    ensures r.error.Some? ==> r.streams == streams && r.emitted == []
    ensures r.error.None? ==>
      && |r.streams| == |streams| + 1
      && r.streams[..|streams|] == streams
      && var added := r.streams[|streams|];
         && Some(added.videoId) == ExtractVideoId(url)
         && added.url == url && added.id == StreamId(now)
         && added.title == "YouTube Video " + NatToString(|r.streams|)
         && added.thumbnail == ThumbnailUrl(added.videoId)
         && !added.isPlaying && !added.isMuted
         && r.emitted == TrackAnalytics(user, sessionId, VideoAdded(added.videoId, |r.streams|))
  {
    if |streams| >= maxScreens then AddResult(streams, [], Some(MaxScreensReached))
    else match ExtractVideoId(url)
      case None => AddResult(streams, [], Some(InvalidUrl))
      case Some(videoId) =>
        if HasVideo(streams, videoId) then
          AddResult(streams, [], Some(AlreadyAdded))
        else
          var next := streams + [NewStream(url, videoId, now, |streams| + 1)];
          AddResult(next, TrackAnalytics(user, sessionId, VideoAdded(videoId, |streams| + 1)), None)
  }

  // ------------------------------------------------------------- remove

  /** `streams.find(s => s.id === id)`: the first stream with that handle. */
  function FindById(streams: seq<VideoStream>, id: string): (r: Option<VideoStream>)
    ensures r.None? <==> !HasStream(streams, id)
    ensures r.Some? ==> r.value.id == id
    ensures r.Some? ==>
      exists i :: 0 <= i < |streams| && streams[i] == r.value && (forall j :: 0 <= j < i ==> streams[j].id != id)
  {
    if |streams| == 0 then None
    else if streams[0].id == id then Some(streams[0])
    else FindById(streams[1..], id)
  }

  /** `prev.filter(s => s.id !== id)`. */
  function RemoveById(streams: seq<VideoStream>, id: string): (r: seq<VideoStream>)
    ensures forall s :: s in r <==> s in streams && s.id != id
    ensures |r| <= |streams|
    ensures !HasStream(streams, id) ==> r == streams
  {
    if |streams| == 0 then []
    else
      var rest := RemoveById(streams[1..], id);
      assert !HasStream(streams, id) ==> !HasStream(streams[1..], id) by {
        if HasStream(streams[1..], id) {
          var i :| 0 <= i < |streams[1..]| && streams[1..][i].id == id;
          assert streams[i + 1].id == id;
        }
      }
      assert streams == [streams[0]] + streams[1..];
      if streams[0].id == id then rest else [streams[0]] + rest
  }

  datatype RemoveResult = RemoveResult(streams: seq<VideoStream>, emitted: seq<Record>)

  /** `removeStream`: drop every stream with handle `id`; when one existed,
      report the removed video and the screen count the source computes
      (`streams.length - 1`). An unknown handle is a silent no-op. */
  function RemoveStream(streams: seq<VideoStream>, id: string, user: Option<UserId>, sessionId: string): (r: RemoveResult)
    ensures forall s :: s in r.streams <==> s in streams && s.id != id
    ensures !HasStream(streams, id) ==> r.streams == streams && r.emitted == []
    ensures HasStream(streams, id) ==>
      && |streams| > 0
      && var removed := FindById(streams, id).value;
         r.emitted == TrackAnalytics(user, sessionId, VideoRemoved(removed.videoId, |streams| - 1))
  {
    var found := FindById(streams, id);
    var next := RemoveById(streams, id);
    match found
    case None => RemoveResult(next, [])
    case Some(s) => RemoveResult(next, TrackAnalytics(user, sessionId, VideoRemoved(s.videoId, |streams| - 1)))
  }

  // ------------------------------------------------------------- toggles

  /** The two per-stream flags the overlay buttons flip. */
  datatype Flag = Playing | Muted

  function Flip(s: VideoStream, f: Flag): VideoStream {
    match f
    case Playing => s.(isPlaying := !s.isPlaying)
    case Muted => s.(isMuted := !s.isMuted)
  }

  /** `prev.map(s => s.id === id ? {...s, flag: !s.flag} : s)`. */
  function ToggleFlag(streams: seq<VideoStream>, id: string, f: Flag): (r: seq<VideoStream>)
    ensures |r| == |streams|
    ensures forall i :: 0 <= i < |r| ==> r[i] == if streams[i].id == id then Flip(streams[i], f) else streams[i]
  {
    if |streams| == 0 then []
    else [if streams[0].id == id then Flip(streams[0], f) else streams[0]] + ToggleFlag(streams[1..], id, f)
  }

  /** `togglePlayPause`: flips `isPlaying` of the streams with handle `id`;
      every other field and every other stream is kept. */
  function TogglePlayPause(streams: seq<VideoStream>, id: string): (r: seq<VideoStream>)
    ensures |r| == |streams|
    ensures forall i :: 0 <= i < |r| ==>
      && r[i].(isPlaying := streams[i].isPlaying) == streams[i]
      && (r[i].isPlaying != streams[i].isPlaying <==> streams[i].id == id)
  {
    ToggleFlag(streams, id, Playing)
  }

  /** `toggleMute`: flips `isMuted` of the streams with handle `id`; every
      other field and every other stream is kept. */
  function ToggleMute(streams: seq<VideoStream>, id: string): (r: seq<VideoStream>)
    ensures |r| == |streams|
    ensures forall i :: 0 <= i < |r| ==>
      && r[i].(isMuted := streams[i].isMuted) == streams[i]
      && (r[i].isMuted != streams[i].isMuted <==> streams[i].id == id)
  {
    ToggleFlag(streams, id, Muted)
  }
}

=== FILE: Tiers.dfy ===
/** The subscription tier of the signed-in user and what it controls on the
    main page (src/pages/Index.tsx): the number of screens the grid allows,
    the badge next to the logo, the trial-expiry note and the upgrade card.
    The profile row is fetched from the backing store and may be missing
    (not loaded yet, or the fetch failed); clock readings are milliseconds. */
module Tiers {
  import opened Wrappers

  /** `user_role` of src/integrations/supabase/types.ts. */
  datatype Role = Admin | PremiumRole | FreeRole

  /** `subscription_status` of src/integrations/supabase/types.ts. */
  datatype SubscriptionStatus = Trial | Active | Cancelled | Expired

  /** The columns of a profile row the page reads. `trialEndsAt` is the
      instant of `trial_ends_at` in milliseconds since the epoch. */
  datatype Profile = Profile(role: Option<Role>, status: Option<SubscriptionStatus>, trialEndsAt: Option<int>)

  /** `isPremium`: the premium role or an active subscription. */
  predicate IsPremium(profile: Option<Profile>) {
    profile.Some? && (profile.value.role == Some(PremiumRole) || profile.value.status == Some(Active))
  }

  /** `new Date(trial_ends_at)` in milliseconds; a null column is the epoch. */
  function TrialEndMillis(p: Profile): int {
    p.trialEndsAt.GetOr(0)
  }

  /** `isTrialActive`: on a trial whose end is strictly after now. */
  predicate IsTrialActive(profile: Option<Profile>, nowMillis: int) {
    profile.Some? && profile.value.status == Some(Trial) && TrialEndMillis(profile.value) > nowMillis
  }

  /** The `maxScreens` the page passes to the grid. */
  function MaxScreens(profile: Option<Profile>, nowMillis: int): (n: nat)
    ensures n in {2, 4, 8}
    ensures n == 8 <==> IsPremium(profile)
    ensures n == 4 <==> !IsPremium(profile) && IsTrialActive(profile, nowMillis)
    ensures n == 2 <==> !IsPremium(profile) && !IsTrialActive(profile, nowMillis)
  {
    if IsPremium(profile) then 8 else if IsTrialActive(profile, nowMillis) then 4 else 2
  }

  /** The tier badge: its label and its variant. */
  datatype Badge = Badge(text: string, variant: string)

  /** The badge, shown only once a profile is loaded. */
  function TierBadge(profile: Option<Profile>, nowMillis: int): (b: Option<Badge>)
    ensures b.None? <==> profile.None?
  {
    if profile.None? then None
    else if IsPremium(profile) then Some(Badge("Premium", "default"))
    else if IsTrialActive(profile, nowMillis) then Some(Badge("Free Trial", "secondary"))
    else Some(Badge("Free", "outline"))
  }

  /** The "Trial expires" note: a loaded profile on an active trial that is not premium. */
  predicate ShowsTrialExpiry(profile: Option<Profile>, nowMillis: int) {
    profile.Some? && IsTrialActive(profile, nowMillis) && !IsPremium(profile)
  }

  /** The "Unlock Premium Features" card: everyone who is not premium. */
  predicate ShowsUpgradeCard(profile: Option<Profile>) {
    !IsPremium(profile)
  }
}

module TierProofs {
  import opened Wrappers
  import opened Tiers

  /** The grid always allows at least two screens, and a richer tier never
      allows fewer: premium beats trial, trial beats free. */
  lemma CapacityOrder(profile: Option<Profile>, nowMillis: int)
    ensures MaxScreens(profile, nowMillis) >= 2
    ensures IsPremium(profile) ==> MaxScreens(profile, nowMillis) > 4
    ensures IsTrialActive(profile, nowMillis) ==> MaxScreens(profile, nowMillis) >= 4
  {
  }

  /** A trial still counts as premium when the subscription is active or the
      role is premium: premium overrides trial for capacity and badge alike. */
  lemma PremiumOverridesTrial(p: Profile, nowMillis: int)
    requires p.role == Some(PremiumRole)
    ensures MaxScreens(Some(p), nowMillis) == 8
    ensures TierBadge(Some(p), nowMillis) == Some(Badge("Premium", "default"))
    ensures !ShowsTrialExpiry(Some(p), nowMillis) && !ShowsUpgradeCard(Some(p))
  {
  }

  /** Badge, trial note and upgrade card follow the same precedence as the
      screen limit: each of them is determined by the limit for a loaded profile. */
  lemma BadgeAgreesWithCapacity(profile: Option<Profile>, nowMillis: int)
    requires profile.Some?
    ensures TierBadge(profile, nowMillis).value.text == "Premium" <==> MaxScreens(profile, nowMillis) == 8
    ensures TierBadge(profile, nowMillis).value.text == "Free Trial" <==> MaxScreens(profile, nowMillis) == 4
    ensures TierBadge(profile, nowMillis).value.text == "Free" <==> MaxScreens(profile, nowMillis) == 2
    ensures ShowsTrialExpiry(profile, nowMillis) <==> MaxScreens(profile, nowMillis) == 4
    ensures ShowsUpgradeCard(profile) <==> MaxScreens(profile, nowMillis) < 8
  {
  }

  /** A trial without an end date is never active at a non-negative clock
      reading, and a trial is active exactly until its end instant. */
  lemma TrialWindow(p: Profile, nowMillis: int)
    requires p.status == Some(Trial) && !IsPremium(Some(p))
    ensures p.trialEndsAt.None? && nowMillis >= 0 ==> MaxScreens(Some(p), nowMillis) == 2
    ensures p.trialEndsAt.Some? ==> (MaxScreens(Some(p), nowMillis) == 4 <==> nowMillis < p.trialEndsAt.value)
  {
  }

  /** Without a loaded profile the page offers the free tier and the upgrade card. */
  lemma NoProfileIsFree(nowMillis: int)
    ensures MaxScreens(None, nowMillis) == 2 && ShowsUpgradeCard(None) && TierBadge(None, nowMillis).None?
  {
  }
}

=== FILE: VideoIds.dfy ===
/** Extraction of a YouTube video identifier from a pasted URL
    (`extractVideoId` in src/components/VideoGrid.tsx).

    The source tries three regular expressions in order. Each is an optional
    `http(s)://` and `www.` prefix, a literal marker, and a capture of one or
    more characters other than `&`, newline, `?` and `#`. The optional
    prefixes never change whether a pattern matches nor what it captures
    (every marker starts with 'y', no prefix contains a 'y', and no marker
    overlaps itself), so each pattern is modelled as a scan for the first
    occurrence of its marker that is followed by a token character, and the
    capture is the maximal token after it. */
module VideoIds {
  import opened Wrappers

  const WatchMarker: string := "youtube.com/watch?v="
  const ShortMarker: string := "youtu.be/"
  const EmbedMarker: string := "youtube.com/embed/"

  /** The patterns in the order the source tries them. */
  const Patterns: seq<string> := [WatchMarker, ShortMarker, EmbedMarker]

  /** The characters excluded from the captured identifier. */
  predicate IsDelimiter(c: char) {
    c == '&' || c == '\n' || c == '?' || c == '#'
  }

  /** A non-empty run of non-delimiter characters: what a capture can be. */
  predicate IsVideoToken(t: string) {
    |t| > 0 && forall i :: 0 <= i < |t| ==> !IsDelimiter(t[i])
  }

  /** The marker occurs at `k` and is followed by at least one token character. */
  predicate MatchesAt(s: string, marker: string, k: nat) {
    k + |marker| < |s| && s[k..k + |marker|] == marker && !IsDelimiter(s[k + |marker|])
  }

  /** `k` is the leftmost position where the pattern matches. */
  ghost predicate IsFirstMatch(s: string, marker: string, k: nat) {
    MatchesAt(s, marker, k) && forall j: nat :: j < k ==> !MatchesAt(s, marker, j)
  }

  /** `t` is the maximal token starting at index `i` of `s`. */
  ghost predicate IsMaximalTokenAt(s: string, i: nat, t: string) {
    && i + |t| <= |s|
    && s[i..i + |t|] == t
    && IsVideoToken(t)
    && (i + |t| == |s| || IsDelimiter(s[i + |t|]))
  }

  /** Declarative meaning of one pattern capturing `t` from `s`. */
  ghost predicate IsCaptureOf(s: string, marker: string, t: string) {
    exists k: nat :: IsFirstMatch(s, marker, k) && IsMaximalTokenAt(s, k + |marker|, t)
  }

  /** Ordered alternation over `patterns`: some pattern captures `t` and no
      earlier pattern matches anywhere in `s`. */
  ghost predicate IsFirstCaptureOf(s: string, patterns: seq<string>, t: string) {
    exists i: nat :: i < |patterns| && IsCaptureOf(s, patterns[i], t)
      && forall j: nat, k: nat :: j < i ==> !MatchesAt(s, patterns[j], k)
  }

  /** `marker` occurs at index `k` of `s`, whatever follows it. */
  predicate OccursAt(s: string, marker: string, k: nat) {
    k + |marker| <= |s| && s[k..k + |marker|] == marker
  }

  /** `marker` occurs somewhere in `s`. */
  predicate Mentions(s: string, marker: string) {
    exists k: nat :: k <= |s| && OccursAt(s, marker, k)
  }

  /** The end of the token run that starts at `i`. */
  function TokenEnd(s: string, i: nat): (j: nat)
    requires i <= |s|
    ensures i <= j <= |s|
    ensures forall p :: i <= p < j ==> !IsDelimiter(s[p])
    ensures j == |s| || IsDelimiter(s[j])
    decreases |s| - i
  {
    if i == |s| || IsDelimiter(s[i]) then i else TokenEnd(s, i + 1)
  }

  /** The leftmost position at or after `from` where the pattern matches. */
  function FirstMatch(s: string, marker: string, from: nat): (r: Option<nat>)
    ensures r.Some? ==> from <= r.value && MatchesAt(s, marker, r.value)
    ensures r.Some? ==> forall j: nat :: from <= j < r.value ==> !MatchesAt(s, marker, j)
    ensures r.None? ==> forall j: nat :: from <= j ==> !MatchesAt(s, marker, j)
    decreases |s| - from
  {
    if from + |marker| >= |s| then None
    else if MatchesAt(s, marker, from) then Some(from)
    else FirstMatch(s, marker, from + 1)
  }

  /** One pattern applied to `s`: the captured group, or None when it does not match. */
  function Capture(s: string, marker: string): (r: Option<string>)
    ensures r.Some? ==> IsVideoToken(r.value)
    ensures r.None? <==> forall k: nat :: !MatchesAt(s, marker, k)
  {
    match FirstMatch(s, marker, 0)
    case None => None
    case Some(k) =>
      var e := TokenEnd(s, k + |marker|);
      assert e != k + |marker|;
      Some(s[k + |marker| .. e])
  }

  /** Tries `patterns` in order; the first that matches determines the result. */
  function FirstCapture(url: string, patterns: seq<string>): (r: Option<string>)
    ensures r.Some? ==> IsVideoToken(r.value)
    ensures r.None? <==> forall i: nat, k: nat :: i < |patterns| ==> !MatchesAt(url, patterns[i], k)
  {
    if |patterns| == 0 then None
    else
      var c := Capture(url, patterns[0]);
      if c.Some? then c
      else
        FirstCapture(url, patterns[1..])
  }

  /** `extractVideoId`: the identifier captured by the first of the watch-page,
      short-link and embed patterns that matches, or None. */
  function ExtractVideoId(url: string): (r: Option<string>)
    ensures r.Some? ==> IsVideoToken(r.value)
    ensures r.None? <==>
      forall k: nat ::
        !MatchesAt(url, WatchMarker, k) && !MatchesAt(url, ShortMarker, k) && !MatchesAt(url, EmbedMarker, k)
  {
    var r := FirstCapture(url, Patterns);
    assert Patterns[0] == WatchMarker && Patterns[1] == ShortMarker && Patterns[2] == EmbedMarker;
    r
  }

  /** A token that also contains no '/': every real YouTube identifier is one. */
  predicate IsPathSafeToken(t: string) {
    IsVideoToken(t) && forall i :: 0 <= i < |t| ==> t[i] != '/'
  }

  /** A scheme/host prefix the source's patterns allow before a marker
      (`https://`, `www.`, ...) or any other text without a 'y'. */
  predicate IsNeutralPrefix(p: string) {
    forall i :: 0 <= i < |p| ==> p[i] != 'y'
  }

  function WatchUrl(t: string): string { "https://www." + WatchMarker + t }
  function ShortUrl(t: string): string { "https://" + ShortMarker + t }
  function EmbedUrl(t: string): string { "https://www." + EmbedMarker + t }
}

module VideoIdProofs {
  import opened Wrappers
  import opened VideoIds

  /** The capture of one pattern is exactly the maximal token after its
      leftmost match, in both directions. */
  lemma CaptureMeaning(s: string, marker: string, t: string)
    ensures Capture(s, marker) == Some(t) <==> IsCaptureOf(s, marker, t)
  {
    if Capture(s, marker) == Some(t) {
      CaptureIsSound(s, marker, t);
    }
    if IsCaptureOf(s, marker, t) {
      CaptureIsComplete(s, marker, t);
    }
  }

  /** What a pattern captures is the maximal token after its leftmost match. */
  lemma CaptureIsSound(s: string, marker: string, t: string)
    requires Capture(s, marker) == Some(t)
    ensures IsCaptureOf(s, marker, t)
  {
    var k := FirstMatch(s, marker, 0).value;
    assert IsFirstMatch(s, marker, k);
    assert IsMaximalTokenAt(s, k + |marker|, t);
  }

  /** The maximal token after the leftmost match is what the pattern captures. */
  lemma CaptureIsComplete(s: string, marker: string, t: string)
    requires IsCaptureOf(s, marker, t)
    ensures Capture(s, marker) == Some(t)
  {
    var k: nat :| IsFirstMatch(s, marker, k) && IsMaximalTokenAt(s, k + |marker|, t);
    CaptureOfFirstMatch(s, marker, k, t);
  }

  /** The maximal token after the leftmost match is the capture. */
  lemma CaptureOfFirstMatch(s: string, marker: string, k: nat, t: string)
    requires IsFirstMatch(s, marker, k) && IsMaximalTokenAt(s, k + |marker|, t)
    ensures Capture(s, marker) == Some(t)
  {
    FirstMatchFindsLeftmost(s, marker, k);
    MaximalTokenUnique(s, k + |marker|, t);
    CaptureAt(s, marker, k);
  }

  /** Once the scan stops at `k`, the capture is the token run after the marker. */
  lemma CaptureAt(s: string, marker: string, k: nat)
    requires FirstMatch(s, marker, 0) == Some(k)
    ensures k + |marker| <= |s|
    ensures Capture(s, marker) == Some(s[k + |marker|..TokenEnd(s, k + |marker|)])
  {
  }

  /** The scan stops at the leftmost match. */
  lemma FirstMatchFindsLeftmost(s: string, marker: string, k: nat)
    requires IsFirstMatch(s, marker, k)
    ensures FirstMatch(s, marker, 0) == Some(k)
  {
    var f := FirstMatch(s, marker, 0);
    assert f.Some? by {
      assert MatchesAt(s, marker, k);
    }
    assert !(f.value < k) && !(k < f.value);
  }

  /** The maximal token at `i` is the one `TokenEnd` delimits. */
  lemma MaximalTokenUnique(s: string, i: nat, t: string)
    requires IsMaximalTokenAt(s, i, t)
    ensures TokenEnd(s, i) == i + |t|
  {
  }

  /** Ordered alternation: a list of patterns yields `t` iff some pattern
      captures `t` and no earlier pattern matches anywhere in the URL. */
  lemma {:induction false} FirstCaptureMeaning(url: string, patterns: seq<string>, t: string)
    ensures FirstCapture(url, patterns) == Some(t) <==> IsFirstCaptureOf(url, patterns, t)
    decreases |patterns|
  {
    if |patterns| > 0 {
      if Capture(url, patterns[0]).Some? {
        FirstPatternDecides(url, patterns, t);
      } else {
        FirstCaptureMeaning(url, patterns[1..], t);
        FailedPatternIsSkipped(url, patterns, t);
      }
    }
  }

  /** When the first pattern matches, its capture is the result, and no
      capture by a later pattern qualifies. */
  lemma FirstPatternDecides(url: string, patterns: seq<string>, t: string)
    requires |patterns| > 0 && Capture(url, patterns[0]).Some?
    ensures FirstCapture(url, patterns) == Some(t) <==> IsFirstCaptureOf(url, patterns, t)
  {
    CaptureMeaning(url, patterns[0], t);
    var c := Capture(url, patterns[0]);
    if FirstCapture(url, patterns) == Some(t) {
      assert IsCaptureOf(url, patterns[0], t);
    }
    var k0 := FirstMatch(url, patterns[0], 0).value;
    assert MatchesAt(url, patterns[0], k0);
    forall i: nat | i < |patterns| && IsCaptureOf(url, patterns[i], t)
      && (forall j: nat, k: nat :: j < i ==> !MatchesAt(url, patterns[j], k))
      ensures c == Some(t)
    {
    }
  }

  /** A first pattern that matches nowhere is skipped: the alternation over
      the list means the alternation over the rest. */
  lemma FailedPatternIsSkipped(url: string, patterns: seq<string>, t: string)
    requires |patterns| > 0 && Capture(url, patterns[0]).None?
    requires FirstCapture(url, patterns[1..]) == Some(t) <==> IsFirstCaptureOf(url, patterns[1..], t)
    ensures FirstCapture(url, patterns) == Some(t) <==> IsFirstCaptureOf(url, patterns, t)
  {
    if FirstCapture(url, patterns[1..]) == Some(t) {
      LaterCaptureQualifies(url, patterns, t);
    }
    if IsFirstCaptureOf(url, patterns, t) {
      QualifyingCaptureIsLater(url, patterns, t);
    }
  }

  /** A capture by the rest of the list, after a first pattern that matches
      nowhere, qualifies for the whole list. */
  lemma LaterCaptureQualifies(url: string, patterns: seq<string>, t: string)
    requires |patterns| > 0 && Capture(url, patterns[0]).None?
    requires IsFirstCaptureOf(url, patterns[1..], t)
    ensures IsFirstCaptureOf(url, patterns, t)
  {
    var tail := patterns[1..];
    var i: nat :| i < |tail| && IsCaptureOf(url, tail[i], t)
      && forall j: nat, k: nat :: j < i ==> !MatchesAt(url, tail[j], k);
    assert patterns[i + 1] == tail[i];
    forall j: nat, k: nat | j < i + 1 ensures !MatchesAt(url, patterns[j], k) {
      if j > 0 {
        assert patterns[j] == tail[j - 1];
      }
    }
  }

  /** A capture that qualifies for the whole list, after a first pattern
      that matches nowhere, qualifies for the rest of the list. */
  lemma QualifyingCaptureIsLater(url: string, patterns: seq<string>, t: string)
    requires |patterns| > 0 && Capture(url, patterns[0]).None?
    requires IsFirstCaptureOf(url, patterns, t)
    ensures IsFirstCaptureOf(url, patterns[1..], t)
  {
    var tail := patterns[1..];
    var i: nat :| i < |patterns| && IsCaptureOf(url, patterns[i], t)
      && forall j: nat, k: nat :: j < i ==> !MatchesAt(url, patterns[j], k);
    CaptureMeaning(url, patterns[0], t);
    assert i != 0;
    assert tail[i - 1] == patterns[i];
    forall j: nat, k: nat | j < i - 1 ensures !MatchesAt(url, tail[j], k) {
      assert tail[j] == patterns[j + 1];
    }
  }

  /** `extractVideoId` precedence: the watch-page pattern wins whenever it
      matches; the short-link pattern is used only if the watch-page pattern
      matches nowhere; the embed pattern only if neither of the others does. */
  lemma ExtractPrecedence(url: string, t: string)
    ensures ExtractVideoId(url) == Some(t) <==>
      || IsCaptureOf(url, WatchMarker, t)
      || ((forall k: nat :: !MatchesAt(url, WatchMarker, k)) && IsCaptureOf(url, ShortMarker, t))
      || ((forall k: nat :: !MatchesAt(url, WatchMarker, k) && !MatchesAt(url, ShortMarker, k))
          && IsCaptureOf(url, EmbedMarker, t))
  {
    FirstCaptureMeaning(url, Patterns, t);
    assert Patterns[0] == WatchMarker && Patterns[1] == ShortMarker && Patterns[2] == EmbedMarker;
    if IsCaptureOf(url, ShortMarker, t) && forall k: nat :: !MatchesAt(url, WatchMarker, k) {
      assert forall j: nat, k: nat :: j < 1 ==> !MatchesAt(url, Patterns[j], k);
    }
    if IsCaptureOf(url, EmbedMarker, t)
      && forall k: nat :: !MatchesAt(url, WatchMarker, k) && !MatchesAt(url, ShortMarker, k)
    {
      assert forall j: nat, k: nat :: j < 2 ==> !MatchesAt(url, Patterns[j], k);
    }
  }
}

/** The three URL shapes round-trip: a path-safe identifier written in any of
    them is extracted unchanged, so the same video pasted in another shape
    yields the same identifier. */
module VideoIdRoundTrips {
  import opened Wrappers
  import opened VideoIds
  import opened VideoIdProofs

  /** A marker placed after a neutral prefix and followed by a token captures that token. */
  lemma CaptureAfterMarker(prefix: string, marker: string, t: string)
    requires |marker| > 0 && IsNeutralPrefix(prefix) && marker[0] == 'y'
    requires IsVideoToken(t)
    ensures Capture(prefix + marker + t, marker) == Some(t)
  {
    var s := prefix + marker + t;
    var k := |prefix|;
    assert s[k..k + |marker|] == marker;
    assert s[k + |marker|] == t[0];
    assert MatchesAt(s, marker, k);
    NoMatchInPrefix(prefix, marker, t);
    assert s[k + |marker|..k + |marker| + |t|] == t;
    assert IsMaximalTokenAt(s, k + |marker|, t);
    CaptureMeaning(s, marker, t);
  }

  /** A marker starting with 'y' cannot start inside a neutral prefix. */
  lemma NoMatchInPrefix(prefix: string, marker: string, t: string)
    requires |marker| > 0 && IsNeutralPrefix(prefix) && marker[0] == 'y'
    ensures forall j: nat :: j < |prefix| ==> !MatchesAt(prefix + marker + t, marker, j)
  {
    var s := prefix + marker + t;
    forall j: nat | j < |prefix| ensures !MatchesAt(s, marker, j) {
      assert s[j] == prefix[j];
    }
  }

  /** A pattern whose marker starts with 'y' cannot match after a neutral
      prefix when the rest of the text lacks the marker's character at `idx`. */
  lemma NoMatchWithoutChar(prefix: string, rest: string, marker: string, idx: nat)
    requires idx < |marker| && marker[0] == 'y' && IsNeutralPrefix(prefix)
    requires forall i :: 0 <= i < |rest| ==> rest[i] != marker[idx]
    ensures forall k: nat :: !MatchesAt(prefix + rest, marker, k)
  {
  }

  lemma WatchShapeRoundTrip(t: string)
    requires IsVideoToken(t)
    ensures ExtractVideoId(WatchUrl(t)) == Some(t)
  {
    assert "https://www." + WatchMarker + t == WatchUrl(t);
    CaptureAfterMarker("https://www.", WatchMarker, t);
    ExtractPrecedence(WatchUrl(t), t);
    CaptureMeaning(WatchUrl(t), WatchMarker, t);
  }

  lemma ShortShapeRoundTrip(t: string)
    requires IsVideoToken(t)
    ensures forall k: nat :: !MatchesAt(ShortUrl(t), WatchMarker, k)
    ensures ExtractVideoId(ShortUrl(t)) == Some(t)
  {
    var u := ShortUrl(t);
    assert "https://" + ShortMarker + t == u;
    assert "https://" + (ShortMarker + t) == u;
    assert WatchMarker[17] == '?';
    NoMatchWithoutChar("https://", ShortMarker + t, WatchMarker, 17);
    CaptureAfterMarker("https://", ShortMarker, t);
    CaptureMeaning(u, ShortMarker, t);
    ExtractPrecedence(u, t);
  }

  lemma EmbedShapeRoundTrip(t: string)
    requires IsPathSafeToken(t)
    ensures forall k: nat :: !MatchesAt(EmbedUrl(t), WatchMarker, k) && !MatchesAt(EmbedUrl(t), ShortMarker, k)
    ensures ExtractVideoId(EmbedUrl(t)) == Some(t)
  {
    var p := "https://www.";
    var u := EmbedUrl(t);
    assert p + EmbedMarker + t == u;
    assert p + (EmbedMarker + t) == u;
    assert WatchMarker[17] == '?';
    NoMatchWithoutChar(p, EmbedMarker + t, WatchMarker, 17);
    NoShortMatchInEmbedUrl(p, t);
    CaptureAfterMarker(p, EmbedMarker, t);
    CaptureMeaning(u, EmbedMarker, t);
    ExtractPrecedence(u, t);
  }

  /** In an embed URL the short-link marker can start only inside the identifier. */
  lemma NoShortMatchBeforeId(prefix: string, t: string)
    requires IsNeutralPrefix(prefix)
    ensures forall k: nat :: k < |prefix| + |EmbedMarker| ==> !MatchesAt(prefix + EmbedMarker + t, ShortMarker, k)
  {
    var s := prefix + EmbedMarker + t;
    var n := |prefix|;
    forall k: nat | k < n + |EmbedMarker| ensures !MatchesAt(s, ShortMarker, k) {
      if k + 9 >= |s| {
      } else if k < n {
        assert s[k] == prefix[k];
      } else if k == n {
        assert s[k + 5] == EmbedMarker[5];
      } else {
        assert s[k] == EmbedMarker[k - n];
      }
    }
  }

  /** The short-link marker cannot occur in an embed URL whose identifier has no '/'. */
  lemma NoShortMatchInEmbedUrl(prefix: string, t: string)
    requires IsNeutralPrefix(prefix) && IsPathSafeToken(t)
    ensures forall k: nat :: !MatchesAt(prefix + EmbedMarker + t, ShortMarker, k)
  {
    var s := prefix + EmbedMarker + t;
    var n := |prefix| + |EmbedMarker|;
    NoShortMatchBeforeId(prefix, t);
    forall k: nat | n <= k ensures !MatchesAt(s, ShortMarker, k) {
      if k + 9 < |s| {
        assert s[k + 8] == t[k + 8 - n];
      }
    }
  }

  /** The same video pasted in any of the three shapes yields one identifier. */
  lemma ShapesAgree(t: string)
    requires IsPathSafeToken(t)
    ensures ExtractVideoId(WatchUrl(t)) == ExtractVideoId(ShortUrl(t)) == ExtractVideoId(EmbedUrl(t)) == Some(t)
  {
    WatchShapeRoundTrip(t);
    ShortShapeRoundTrip(t);
    EmbedShapeRoundTrip(t);
  }

  /** Without the '/' restriction the embed shape need not round-trip: an
      identifier containing `youtu.be/` loses to the short-link pattern,
      tried earlier, which wins inside the identifier. */
  lemma EmbedShapeNeedsPathSafeId()
    ensures ExtractVideoId(EmbedUrl("youtu.be/x")) == Some("x")
  {
    var u := EmbedUrl("youtu.be/x");
    var p := "https://www.";
    assert u == p + EmbedMarker + "youtu.be/x";
    assert p + (EmbedMarker + "youtu.be/x") == u;
    assert WatchMarker[17] == '?';
    NoMatchWithoutChar(p, EmbedMarker + "youtu.be/x", WatchMarker, 17);
    NoShortMatchBeforeId(p, "youtu.be/x");
    var k := |p| + |EmbedMarker|;
    assert u[k..k + |ShortMarker|] == ShortMarker;
    assert MatchesAt(u, ShortMarker, k);
    assert IsFirstMatch(u, ShortMarker, k);
    assert u[k + |ShortMarker|..] == "x";
    assert IsMaximalTokenAt(u, k + |ShortMarker|, "x");
    CaptureMeaning(u, ShortMarker, "x");
    ExtractPrecedence(u, "x");
  }

  /** Text in which none of the three markers occurs yields no identifier,
      for instance "not a url". */
  lemma NotAUrlIsRejected(url: string)
    ensures !Mentions(url, WatchMarker) && !Mentions(url, ShortMarker) && !Mentions(url, EmbedMarker) ==>
      ExtractVideoId(url) == None
    ensures ExtractVideoId("not a url") == None
  {
    if !Mentions(url, WatchMarker) && !Mentions(url, ShortMarker) && !Mentions(url, EmbedMarker) {
      forall k: nat
        ensures !MatchesAt(url, WatchMarker, k) && !MatchesAt(url, ShortMarker, k) && !MatchesAt(url, EmbedMarker, k)
      {
        if k <= |url| {
          assert !OccursAt(url, WatchMarker, k) && !OccursAt(url, ShortMarker, k) && !OccursAt(url, EmbedMarker, k);
        }
      }
    }
  }
}

=== FILE: Wrappers.dfy ===
/** The optional-value type used wherever the source returns `null` or an
    optional record (`extractVideoId`, the signed-in user, the profile). */
module Wrappers {

  datatype Option<+T> = None | Some(value: T) {

    /** Returns the value in Some, or `default` when None. */
    function GetOr(default: T): T {
      match this
      case Some(v) => v
      case None => default
    }
  }
}
